=== FILE: README.md ===
# pipedream: value access and conditions

A Dafny model of the value-access and condition layer of pipedream, a small Go
pipeline-rule engine. It covers four Go files:

- `value_getter.go`: `DefaultValueGetter` reads a dynamic value by a key. It returns a
  primitive as is, indexes arrays and slices, looks up maps, reads exported struct
  fields, sees through pointers and interfaces, and refuses channels, functions and
  unsafe pointers. `StaticValueGetter` always returns the value it holds.
- `condition.go`: the `ConditionOperand` enumeration, the `ValueCondition` stub, and the
  short-circuiting `AndCondition` and `OrCondition`.
- `value_builder.go`: `LiteralValue` and `DynamicValue`. A dynamic value reads a named
  context entry and may pass it through a getter.
- `context.go`: `PipelineContext`, a struct wrapping a Go map. Copies of the struct
  share the map; `Clone` copies it.

Files, one module each:

- `errors.dfy` (`Errors`): the sentinel errors, `Result` and `Option`.
- `values.dfy` (`Values`): Go's `any`. It is a datatype with primitive kinds, arrays and
  slices, maps, structs whose fields carry an exported flag, pointer and interface
  wrappers that may be nil, opaque kinds, and the nil interface.
- `value_getter.dfy` (`ValueGetters`): the getters.
- `context.dfy` (`Contexts`): the context.
- `value_builder.dfy` (`ValueBuilders`): the builders.
- `condition.dfy` (`Conditions`): the conditions.

Modelling choices:

- Reflection's `CanConvert`/`Convert` is not part of this model. The getters take it as a
  parameter, `Conversions`. It gives a key's conversion to `int`, to `string` and to a
  map's key type, or `None` where the conversion is not possible.
- `PipelineContext` is a datatype holding a reference to a `ValueMap` object, which is
  the Go map. Copying the datatype shares the object; `Clone` allocates a new one. A nil
  reference is the zero value's nil map. Reading a nil map finds nothing, and cloning it
  gives nil again. Writing to it panics in Go, so `SetValue` requires the map.
- `Condition.Evaluate` takes no arguments, so conditions are evaluated without a
  context. `ValueCondition.Evaluate` builds neither side and returns `(false, nil)`.
- Conditions defined outside `condition.go` become `Leaf(id, outcome)`. Evaluating a leaf
  yields its outcome and appends `id` to the run's trace. The trace records which
  children were evaluated.
- Go's `(T, error)` pairs become `Result<T>`. On an error, every function modelled here
  returns the zero value (`false`, `nil`), which `Err` stands for.
- An empty context key is not forbidden: `Build` returns `ErrNoContextKeyProvided`.

## Model

| member | source | states |
|---|---|---|
| `ValueGetters.Project` | value_getter.go:41-105 | The result is `ErrInputIsNil` exactly when a pointer or interface on the way is nil. A success is the unwrapped primitive itself, an element, a mapped value or an exported field of the unwrapped value. `ErrImproperValueKind` comes exactly from a channel, func, unsafe pointer or invalid value. Key-type and not-found errors come only from arrays, slices, maps and structs. The unexported-field error comes only from structs. Every error is a getter sentinel other than `ErrKeyIsEmpty`. |
| `ValueGetters.DefaultGetValue` | value_getter.go:27-39 | A nil input gives `ErrInputIsNil` whatever the key. Otherwise a nil key gives `ErrKeyIsEmpty`. Otherwise the input is projected by the key. Only getter sentinels are returned as errors. |
| `ValueGetters.FieldByName` | value_getter.go:92-95 | Finds a field of the given name exactly when one exists. |
| `ValueGetters.GetValue` | value_getter.go:15-17 | A static getter returns its value. The default getter is `DefaultGetValue`. Only the default getter errs, and only with getter sentinels. |
| `ValueGetters.WrappersAreTransparent` | value_getter.go:66-71 | Projecting through any chain of non-nil pointers and interfaces gives the same result as projecting the value inside. |
| `ValueGetters.NilWrapperGivesInputIsNil` | value_getter.go:66-70 | A nil pointer or interface behind any non-nil ones gives `ErrInputIsNil` for every non-nil key. |
| `ValueGetters.NilPointerWithNilKey` | value_getter.go:27-35 | A nil pointer (a typed nil) with a nil key gives `ErrKeyIsEmpty`. The untyped nil interface with a nil key gives `ErrInputIsNil`, because the input check comes first. |
| `ValueGetters.PrimitiveIgnoresKey` | value_getter.go:43-47 | A primitive, behind any non-nil wrappers, is returned unchanged for every non-nil key. |
| `ValueGetters.IndexProjection` | value_getter.go:48-62 | For an array or slice: a key not convertible to int gives `ErrKeyTypeInvalid`, an index outside `[0, len)` gives `ErrValueNotFound`, and any other index gives the element there. |
| `ValueGetters.MapProjection` | value_getter.go:72-83 | For a map: a key not convertible to the key type gives `ErrKeyTypeInvalid`, an absent key gives `ErrValueNotFound`, and a present key gives its value. |
| `ValueGetters.FieldProjection` | value_getter.go:84-100 | For a struct in which only unexported fields share a name (Go repeats only the blank `_`): a key not convertible to string gives `ErrKeyTypeInvalid`, an unknown name gives `ErrValueNotFound`, an unexported field gives `ErrFieldIsUnexported`, and an exported field gives its value. |
| `ValueGetters.OpaqueKindsRefused` | value_getter.go:63-65 | Channels, funcs and unsafe pointers give `ErrImproperValueKind` for every non-nil key, whatever wraps them. |
| `ValueGetters.StaticIgnoresArguments` | value_getter.go:115-117 | A static getter returns the same value for all inputs and keys and never errs. |
| `Contexts.PipelineContext.GetValue` | context.go:10-13 | Returns `(v, true)` when the key is present with `v`, and `(nil, false)` otherwise, including for a nil map. |
| `Contexts.PipelineContext.SetValue` | context.go:16-21 | Returns the previous entry and whether there was one. Afterwards the key maps to the new value and every other key reads as before. |
| `Contexts.PipelineContext.Clone` | context.go:23-27 | The clone has exactly the original's entries. Its map is newly allocated, or nil when the original's is. |
| `Contexts.WriteToCloneIsIsolated` | context.go:23-27 | A `SetValue` on a clone leaves the original's entry unchanged, and the clone sees the new value. |
| `Contexts.WriteToOriginalIsIsolated` | context.go:23-27 | A `SetValue` on the original leaves a clone taken before it unchanged. |
| `Contexts.CopiesShareWrites` | context.go:5-7 | A struct copy shares the map, so a `SetValue` through the copy is seen through the original. |
| `ValueBuilders.Build` | value_builder.go:33-51 | A literal yields its value. `ErrNoContextKeyProvided` is returned exactly when a dynamic key is empty. `ErrValueNotFoundInContext` is returned exactly when the key is non-empty and absent. Otherwise the result is the getter's result, passed on unchanged, or the raw entry when there is no getter. `Build` only reads the context. |
| `ValueBuilders.LiteralIgnoresContext` | value_builder.go:19-21 | A literal builds the same value from every context and never errs. |
| `ValueBuilders.BuildDependsOnlyOnItsEntry` | value_builder.go:33-51 | Two contexts that agree on a builder's context key give the same build result. |
| `ValueBuilders.DynamicIndexesIntoContext` | value_builder.go:45-47 | A dynamic value with the default getter reads the indexed element of a slice stored in the context. |
| `ValueBuilders.SetValueThenBuild` | value_builder.go:38-51 | Setting a different entry does not change a builder's result. Setting its own entry makes a getter-less builder yield the new value. |
| `Conditions.Ordinal` | condition.go:9-17 | Operands are stored as 0 to 6, and 0 exactly for `ConditionOperandInvalid`. |
| `Conditions.FromOrdinal` | condition.go:9-17 | An integer names an operand exactly when it is between 0 and 6. |
| `Conditions.OrdinalRoundTrip` | condition.go:9-17 | Operand to integer to operand gives back the same operand, and the other way round for 0 to 6. |
| `Conditions.Evaluate` | condition.go:32-89 | A run evaluates only leaves of the condition, and any error it returns is one a leaf reported. |
| `Conditions.AllOf` | condition.go:49-61 | The And loop evaluates only leaves of its children, and an error is one some child reported. |
| `Conditions.AnyOf` | condition.go:76-88 | The Or loop evaluates only leaves of its children, and an error is one some child reported. |
| `Conditions.AndStopsAtFirstNonTrue` | condition.go:49-59 | Children are evaluated in order up to the first one that is not `(true, nil)`. That child's error is returned, or `(false, nil)` if it gave false. The trace is exactly that of the children up to it, so no later child is evaluated. |
| `Conditions.AllOfStops` | condition.go:49-59 | The same, for the And loop itself. |
| `Conditions.OrStopsAtFirstNonFalse` | condition.go:76-86 | Children are evaluated in order up to the first one that is not `(false, nil)`. That child's error is returned, or `(true, nil)` if it gave true. No later child is evaluated. |
| `Conditions.AnyOfStops` | condition.go:76-86 | The same, for the Or loop itself. |
| `Conditions.AndTrueIffAllTrue` | condition.go:44-62 | And gives `(true, nil)` exactly when every child does, including for no children. It then evaluated every child. |
| `Conditions.AllOfTrue` | condition.go:49-61 | The same, for the And loop itself. |
| `Conditions.OrFalseIffAllFalse` | condition.go:71-89 | Or gives `(false, nil)` exactly when every child does, including for no children. It then evaluated every child. |
| `Conditions.AnyOfFalse` | condition.go:76-88 | The same, for the Or loop itself. |
| `Conditions.ValueConditionIsFalse` | condition.go:32-35 | `ValueCondition.Evaluate` gives `(false, nil)` for every LHS, RHS and operand, and evaluates nothing. |
| `Conditions.ShortCircuitSkipsErrors` | condition.go:44-89 | And over `[false, error]` gives `(false, nil)` and Or over `[true, error]` gives `(true, nil)`; neither evaluates the failing child. |

## Left out

- Reflection's conversion rules (`CanConvert`/`Convert`) are a parameter, not a definition. Examples are int to string making a rune string, and float to int truncating.
- Project: a map whose key type is an interface accepts every key in `CanConvert`. A key whose dynamic type cannot be hashed (a slice, say) then makes `MapIndex` panic in Go. The model has no panic: it returns `ErrValueNotFound` or the entry, as for any other key.
- MapProjection: its "absent key gives `ErrValueNotFound`" clause also covers the unhashable keys above, for which Go panics instead.
- Project: map keys are compared by structural equality of `Value`, not by Go's `==`. They differ for channel keys (all channels are equal here), pointer keys (Go compares addresses, the model contents), NaN keys (Go never finds them) and keys of distinct named types with the same content (Go tells them apart).
- MapProjection: its "present key gives its value" and "absent key gives `ErrValueNotFound`" clauses use the structural equality above, so for channel, pointer, NaN and named-type keys they can disagree with Go.
- Project: values are finite trees. A Go value whose pointers and interfaces lead back to itself (`var x any; x = &x`) makes the pointer/interface case recurse without end, until the stack overflows; the model has no such value, so `Project` always answers.
- Evaluate: conditions are finite trees. A Go condition graph that contains itself (an `AndCondition` among its own children) recurses without end and has no counterpart here.
- Floating-point and complex values are opaque primitives. No arithmetic is done on them.
- Promoted fields of embedded structs are not modelled: `FieldByName` searches only a struct's own fields.
- Conditions run in a fixed order here. Side effects or non-determinism inside a user-written `Condition` appear only as the leaf's trace entry.
- A nil child condition makes Go panic. The model has no nil child.
- `SetValue` on a context whose map is nil panics in Go. The model requires the map instead of modelling the panic.
- User-written `ValueGetter` and `ValueBuilder` implementations are not modelled; only the ones in these files are.
- `data_source.go` is not part of this model. Its `Get` is a reflective dynamic call.
- The executor in `pipedream.go` is not part of this model. `Execute` returns `(nil, nil)` unconditionally, and `RegisterDataSource` writes to a map that is never initialised.
- The node types in `nodes/` and `pipeline.go` are not part of this model. They are declarations only; no node has an `Execute` method.
- No comparator is modelled, because `ValueCondition.Evaluate` does not compare anything yet.

=== FILE: condition.dfy ===
/** The conditions of condition.go: the operand enumeration, the `ValueCondition`
    stub and the short-circuiting `AndCondition` and `OrCondition`. */
module Conditions {
  import opened Errors
  import opened ValueBuilders

  /** `ConditionOperand`, an `iota` enumeration starting at `ConditionOperandInvalid`. */
  datatype Operand =
    | Invalid
    | Equal
    | NotEqual
    | GreaterThan
    | LessThan
    | GreaterThanOrEqual
    | LessThanOrEqual

  /** The integer Go stores for an operand. */
  function Ordinal(op: Operand): (n: nat)
    ensures n <= 6
    ensures n == 0 <==> op == Invalid
  {
    match op
    case Invalid => 0
    case Equal => 1
    case NotEqual => 2
    case GreaterThan => 3
    case LessThan => 4
    case GreaterThanOrEqual => 5
    case LessThanOrEqual => 6
  }

  /** The named operand a stored integer stands for, if any. */
  function FromOrdinal(n: int): (r: Option<Operand>)
    ensures r.Some? <==> 0 <= n <= 6
  {
    if n == 0 then Some(Invalid)
    else if n == 1 then Some(Equal)
    else if n == 2 then Some(NotEqual)
    else if n == 3 then Some(GreaterThan)
    else if n == 4 then Some(LessThan)
    else if n == 5 then Some(GreaterThanOrEqual)
    else if n == 6 then Some(LessThanOrEqual)
    else None
  }

  /** The encoding of operands as integers is a bijection onto 0..6. */
  lemma OrdinalRoundTrip(op: Operand, n: int)
    ensures FromOrdinal(Ordinal(op)) == Some(op)
    ensures FromOrdinal(n).Some? ==> Ordinal(FromOrdinal(n).value) == n
  {
  }

  /** A condition. `Leaf` stands for any `Condition` implemented outside this file:
      evaluating it yields `outcome` and is recorded in the trace under `id`. */
  datatype Condition =
    | Leaf(id: nat, outcome: Result<bool>)
    | ValueCond(lhs: ValueBuilder, rhs: ValueBuilder, op: Operand)
    | And(conds: seq<Condition>)
    | Or(conds: seq<Condition>)

  /** The outcome of an evaluation and the leaves it evaluated, in order. */
  datatype Run = Run(result: Result<bool>, trace: seq<nat>)

  /** The leaves of a condition. */
  ghost function Leaves(c: Condition): set<nat>
    decreases c
  {
    match c
    case Leaf(id, _) => {id}
    case ValueCond(_, _, _) => {}
    case And(cs) => set i, id | 0 <= i < |cs| && id in Leaves(cs[i]) :: id
    case Or(cs) => set i, id | 0 <= i < |cs| && id in Leaves(cs[i]) :: id
  }

  /** The errors the leaves of a condition can report. */
  ghost function Raises(c: Condition): set<Error>
    decreases c
  {
    match c
    case Leaf(_, outcome) => if outcome.Err? then {outcome.error} else {}
    case ValueCond(_, _, _) => {}
    case And(cs) => set i, e | 0 <= i < |cs| && e in Raises(cs[i]) :: e
    case Or(cs) => set i, e | 0 <= i < |cs| && e in Raises(cs[i]) :: e
  }

  /** `Evaluate`. Only leaves of `c` are evaluated, and an error is always one a leaf reported. */
  function Evaluate(c: Condition): (run: Run)
    decreases c, 1
    ensures forall id :: id in run.trace ==> id in Leaves(c)
    ensures run.result.Err? ==> run.result.error in Raises(c)
  {
    match c
    case Leaf(id, outcome) => Run(outcome, [id])
    // `ValueCondition.Evaluate` is a stub
    case ValueCond(_, _, _) => Run(Ok(false), [])
    case And(cs) => if |cs| == 0 then Run(Ok(true), []) else AllOf(cs)
    case Or(cs) => if |cs| == 0 then Run(Ok(false), []) else AnyOf(cs)
  }

  /** The loop of `AndCondition.Evaluate`: stop at the first error or `false`. */
  function AllOf(cs: seq<Condition>): (run: Run)
    decreases cs, 0
    ensures forall id :: id in run.trace ==> exists i :: 0 <= i < |cs| && id in Leaves(cs[i])
    ensures run.result.Err? ==> exists i :: 0 <= i < |cs| && run.result.error in Raises(cs[i])
  {
    if cs == [] then Run(Ok(true), [])
    else
      var first := Evaluate(cs[0]);
      match first.result
      case Err(e) => Run(Err(e), first.trace)
      case Ok(b) =>
        if !b then Run(Ok(false), first.trace)
        else
          var rest := AllOf(cs[1..]);
          assert forall i :: 0 <= i < |cs[1..]| ==> cs[1..][i] == cs[i + 1];
          Run(rest.result, first.trace + rest.trace)
  }

  /** The loop of `OrCondition.Evaluate`: stop at the first error or `true`. */
  function AnyOf(cs: seq<Condition>): (run: Run)
    decreases cs, 0
    ensures forall id :: id in run.trace ==> exists i :: 0 <= i < |cs| && id in Leaves(cs[i])
    ensures run.result.Err? ==> exists i :: 0 <= i < |cs| && run.result.error in Raises(cs[i])
  {
    if cs == [] then Run(Ok(false), [])
    else
      var first := Evaluate(cs[0]);
      match first.result
      case Err(e) => Run(Err(e), first.trace)
      case Ok(b) =>
        if b then Run(Ok(true), first.trace)
        else
          var rest := AnyOf(cs[1..]);
          assert forall i :: 0 <= i < |cs[1..]| ==> cs[1..][i] == cs[i + 1];
          Run(rest.result, first.trace + rest.trace)
  }

  /** What evaluating each of `cs` in turn would record. */
  function Traces(cs: seq<Condition>): seq<nat>
  {
    if cs == [] then [] else Evaluate(cs[0]).trace + Traces(cs[1..])
  }

  /** And stops at its first child that is not `(true, nil)`: an error is passed on,
      `false` gives `(false, nil)`, and no later child is evaluated. */
  lemma {:induction false} AndStopsAtFirstNonTrue(cs: seq<Condition>, k: nat)
    requires k < |cs|
    requires forall i :: 0 <= i < k ==> Evaluate(cs[i]).result == Ok(true)
    requires Evaluate(cs[k]).result != Ok(true)
    ensures Evaluate(And(cs)).result == if Evaluate(cs[k]).result.Err? then Evaluate(cs[k]).result else Ok(false)
    ensures Evaluate(And(cs)).trace == Traces(cs[..k + 1])
  {
    AllOfStops(cs, k);
  }

  lemma {:induction false} AllOfStops(cs: seq<Condition>, k: nat)
    requires k < |cs|
    requires forall i :: 0 <= i < k ==> Evaluate(cs[i]).result == Ok(true)
    requires Evaluate(cs[k]).result != Ok(true)
    ensures AllOf(cs).result == if Evaluate(cs[k]).result.Err? then Evaluate(cs[k]).result else Ok(false)
    ensures AllOf(cs).trace == Traces(cs[..k + 1])
  {
    if k == 0 {
      assert cs[..1] == [cs[0]];
      assert Traces([cs[0]]) == Evaluate(cs[0]).trace + Traces([]);
    } else {
      assert cs[..k + 1][1..] == cs[1..][..k];
      AllOfStops(cs[1..], k - 1);
    }
  }

  /** Or stops at its first child that is not `(false, nil)`: an error is passed on,
      `true` gives `(true, nil)`, and no later child is evaluated. */
  lemma {:induction false} OrStopsAtFirstNonFalse(cs: seq<Condition>, k: nat)
    requires k < |cs|
    requires forall i :: 0 <= i < k ==> Evaluate(cs[i]).result == Ok(false)
    requires Evaluate(cs[k]).result != Ok(false)
    ensures Evaluate(Or(cs)).result == if Evaluate(cs[k]).result.Err? then Evaluate(cs[k]).result else Ok(true)
    ensures Evaluate(Or(cs)).trace == Traces(cs[..k + 1])
  {
    AnyOfStops(cs, k);
  }

  lemma {:induction false} AnyOfStops(cs: seq<Condition>, k: nat)
    requires k < |cs|
    requires forall i :: 0 <= i < k ==> Evaluate(cs[i]).result == Ok(false)
    requires Evaluate(cs[k]).result != Ok(false)
    ensures AnyOf(cs).result == if Evaluate(cs[k]).result.Err? then Evaluate(cs[k]).result else Ok(true)
    ensures AnyOf(cs).trace == Traces(cs[..k + 1])
  {
    if k == 0 {
      assert cs[..1] == [cs[0]];
      assert Traces([cs[0]]) == Evaluate(cs[0]).trace + Traces([]);
    } else {
      assert cs[..k + 1][1..] == cs[1..][..k];
      AnyOfStops(cs[1..], k - 1);
    }
  }

  /** And is `(true, nil)` exactly when every child is; then every child was evaluated.
      An empty And is `(true, nil)`. */
  lemma {:induction false} AndTrueIffAllTrue(cs: seq<Condition>)
    ensures Evaluate(And(cs)).result == Ok(true) <==> forall i :: 0 <= i < |cs| ==> Evaluate(cs[i]).result == Ok(true)
    ensures Evaluate(And(cs)).result == Ok(true) ==> Evaluate(And(cs)).trace == Traces(cs)
  {
    AllOfTrue(cs);
  }

  lemma {:induction false} AllOfTrue(cs: seq<Condition>)
    ensures AllOf(cs).result == Ok(true) <==> forall i :: 0 <= i < |cs| ==> Evaluate(cs[i]).result == Ok(true)
    ensures AllOf(cs).result == Ok(true) ==> AllOf(cs).trace == Traces(cs)
  {
    if cs != [] {
      AllOfTrue(cs[1..]);
      assert forall i :: 0 <= i < |cs[1..]| ==> cs[1..][i] == cs[i + 1];
    }
  }

  /** Or is `(false, nil)` exactly when every child is; then every child was evaluated.
      An empty Or is `(false, nil)`. */
  lemma {:induction false} OrFalseIffAllFalse(cs: seq<Condition>)
    ensures Evaluate(Or(cs)).result == Ok(false) <==> forall i :: 0 <= i < |cs| ==> Evaluate(cs[i]).result == Ok(false)
    ensures Evaluate(Or(cs)).result == Ok(false) ==> Evaluate(Or(cs)).trace == Traces(cs)
  {
    AnyOfFalse(cs);
  }

  lemma {:induction false} AnyOfFalse(cs: seq<Condition>)
    ensures AnyOf(cs).result == Ok(false) <==> forall i :: 0 <= i < |cs| ==> Evaluate(cs[i]).result == Ok(false)
    ensures AnyOf(cs).result == Ok(false) ==> AnyOf(cs).trace == Traces(cs)
  {
    if cs != [] {
      AnyOfFalse(cs[1..]);
      assert forall i :: 0 <= i < |cs[1..]| ==> cs[1..][i] == cs[i + 1];
    }
  }

  /** `ValueCondition.Evaluate` gives `(false, nil)` for every LHS, RHS and operand,
      and consults neither builder. */
  lemma ValueConditionIsFalse(lhs: ValueBuilder, rhs: ValueBuilder, op: Operand)
    ensures Evaluate(ValueCond(lhs, rhs, op)) == Run(Ok(false), [])
  {
  }

  /** `[false, error]` under And and `[true, error]` under Or: the erring child is never evaluated. */
  lemma ShortCircuitSkipsErrors(e: Error)
    ensures Evaluate(And([Leaf(0, Ok(false)), Leaf(1, Err(e))])) == Run(Ok(false), [0])
    ensures Evaluate(Or([Leaf(0, Ok(true)), Leaf(1, Err(e))])) == Run(Ok(true), [0])
  {
    var ands := [Leaf(0, Ok(false)), Leaf(1, Err(e))];
    AndStopsAtFirstNonTrue(ands, 0);
    assert ands[..1] == [Leaf(0, Ok(false))];
    assert Traces([Leaf(0, Ok(false))]) == [0] + Traces([]);
    var ors := [Leaf(0, Ok(true)), Leaf(1, Err(e))];
    OrStopsAtFirstNonFalse(ors, 0);
    assert ors[..1] == [Leaf(0, Ok(true))];
    assert Traces([Leaf(0, Ok(true))]) == [0] + Traces([]);
  }
}

=== FILE: context.dfy ===
/** `PipelineContext` of context.go: a value type wrapping a Go map, which is a reference.
    Copies of a context share one map; `Clone` gives a context with a map of its own. */
module Contexts {
  import opened Values

  /** A Go `map[string]any` object. */
  class ValueMap {
    var entries: map<string, Value>

    constructor (entries: map<string, Value>)
      ensures this.entries == entries
    {
      this.entries := entries;
    }
  }

  /** The context struct; `values == null` is the zero value's nil map. */
  datatype PipelineContext = PipelineContext(values: ValueMap?) {

    /** The entries the context sees; a nil map has none. */
    ghost function Entries(): map<string, Value>
      reads values
    {
      if values == null then map[] else values.entries
    }

    /** `GetValue`: the entry under `k` and `true`, or `nil` and `false` when there is none. */
    function GetValue(k: string): (r: (Value, bool))
      reads values
      ensures r.1 <==> k in Entries()
      ensures r.1 ==> r.0 == Entries()[k]
      ensures !r.1 ==> r.0 == Nil
    {
      if values != null && k in values.entries then (values.entries[k], true) else (Nil, false)
    }

    /** `SetValue`: stores `v` under `k` in the shared map and returns what was there.
        Writing into a nil map panics in Go, hence the precondition. */
    method SetValue(k: string, v: Value) returns (prev: Value, had: bool)
      requires values != null
      modifies values
      ensures (prev, had) == old(GetValue(k))
      ensures values.entries == old(values.entries)[k := v]
      ensures GetValue(k) == (v, true)
      ensures forall k' :: k' != k ==> GetValue(k') == old(GetValue(k'))
    {
      var found := GetValue(k);
      prev, had := found.0, found.1;
      values.entries := values.entries[k := v];
    }

    /** `Clone`: a context over a new map with the same entries (`maps.Clone` of a nil map is nil). */
    method Clone() returns (c: PipelineContext)
      ensures c.Entries() == Entries()
      ensures (c.values == null) == (values == null)
      ensures c.values != null ==> fresh(c.values)
    {
      if values == null {
        c := PipelineContext(null);
      } else {
        var m := new ValueMap(values.entries);
        c := PipelineContext(m);
      }
    }
  }

  /** A write through a clone leaves the original's entry as it was, and the clone sees it. */
  method WriteToCloneIsIsolated(p: PipelineContext, k: string, v: Value) returns (before: (Value, bool), after: (Value, bool), inClone: (Value, bool))
    requires p.values != null
    ensures after == before
    ensures inClone == (v, true)
  {
    var c := p.Clone();
    before := p.GetValue(k);
    var _, _ := c.SetValue(k, v);
    after := p.GetValue(k);
    inClone := c.GetValue(k);
  }

  /** A write through the original leaves a clone taken earlier as it was. */
  method WriteToOriginalIsIsolated(p: PipelineContext, k: string, v: Value) returns (c: PipelineContext, before: (Value, bool), after: (Value, bool))
    requires p.values != null
    modifies p.values
    ensures c.Entries() == old(p.Entries())
    ensures after == before
  {
    c := p.Clone();
    before := c.GetValue(k);
    var _, _ := p.SetValue(k, v);
    after := c.GetValue(k);
  }

  /** Copying the struct copies the map reference: a write through the copy is seen by the original. */
  method CopiesShareWrites(p: PipelineContext, k: string, v: Value) returns (seen: (Value, bool))
    requires p.values != null
    modifies p.values
    ensures seen == (v, true)
  {
    var q := p;
    var _, _ := q.SetValue(k, v);
    seen := p.GetValue(k);
  }
}

=== FILE: errors.dfy ===
/** Error values of the engine and the two result wrappers used throughout. */
module Errors {

  /** The sentinel errors of value_getter.go, value_builder.go and condition.go,
      plus `Raised`, an error reported by a condition outside the core. */
  datatype Error =
    // value_getter.go
    | ValueNotFound
    | KeyTypeInvalid
    | ImproperValueKind
    | InputIsNil
    | KeyIsEmpty
    | FieldIsUnexported
    // value_builder.go
    | NoContextKeyProvided
    | ValueNotFoundInContext
    // condition.go (declared there, produced nowhere yet)
    | InvalidCondition
    | Raised(message: string)

  /** A Go `(T, error)` pair: `Ok(v)` for `(v, nil)`, `Err(e)` for `(zero, e)`. */
  datatype Result<T> = Ok(value: T) | Err(error: Error)

  datatype Option<T> = None | Some(value: T)

  /** The errors a value getter of this package can return. */
  predicate IsGetterError(e: Error) {
    e in {ValueNotFound, KeyTypeInvalid, ImproperValueKind, InputIsNil, KeyIsEmpty, FieldIsUnexported}
  }
}

=== FILE: value_builder.dfy ===
/** `LiteralValue` and `DynamicValue` of value_builder.go: values built from a pipeline context. */
module ValueBuilders {
  import opened Errors
  import opened Values
  import opened ValueGetters
  import opened Contexts

  /** A literal, or an entry of the context (`contextKey`) optionally passed through
      `getter` with `key`. */
  datatype ValueBuilder =
    | Literal(value: Value)
    | Dynamic(contextKey: string, getter: Option<ValueGetter>, key: Value)

  /** `Build`: checks run in order — empty context key, missing entry — and a
      getter's answer, error or not, is the builder's answer. */
  function Build(conv: Conversions, b: ValueBuilder, pctx: PipelineContext): (r: Result<Value>)
    reads pctx.values
    ensures b.Literal? ==> r == Ok(b.value)
    ensures r == Err(NoContextKeyProvided) <==> b.Dynamic? && b.contextKey == ""
    ensures r == Err(ValueNotFoundInContext) <==> b.Dynamic? && b.contextKey != "" && b.contextKey !in pctx.Entries()
    ensures b.Dynamic? && b.contextKey != "" && b.contextKey in pctx.Entries() ==>
      r == if b.getter.Some? then GetValue(b.getter.value, conv, pctx.Entries()[b.contextKey], b.key)
           else Ok(pctx.Entries()[b.contextKey])
  {
    match b
    case Literal(value) => Ok(value)
    case Dynamic(contextKey, getter, key) =>
      if contextKey == "" then Err(NoContextKeyProvided)
      else
        var (rawValue, found) := pctx.GetValue(contextKey);
        if !found then Err(ValueNotFoundInContext)
        else if getter.Some? then GetValue(getter.value, conv, rawValue, key)
        else Ok(rawValue)
  }

  /** A builder depends on the context only through the entry it names. */
  lemma BuildDependsOnlyOnItsEntry(conv: Conversions, b: ValueBuilder, p: PipelineContext, q: PipelineContext)
    requires b.Dynamic? ==> p.GetValue(b.contextKey) == q.GetValue(b.contextKey)
    ensures Build(conv, b, p) == Build(conv, b, q)
  {
  }

  /** A literal builds the same value from every context. */
  lemma LiteralIgnoresContext(conv: Conversions, value: Value, p: PipelineContext, q: PipelineContext)
    ensures Build(conv, Literal(value), p) == Build(conv, Literal(value), q) == Ok(value)
  {
  }

  /** Reading an element out of a slice held in the context, through the default getter. */
  lemma DynamicIndexesIntoContext(conv: Conversions, p: PipelineContext, name: string,
                                  ws: seq<WrapperKind>, kind: SeqKind, elems: seq<Value>, key: Value, i: int)
    requires name != "" && p.GetValue(name) == (Wrap(ws, Sequence(kind, elems)), true)
    requires key != Nil && conv.toInt(key) == Some(i) && 0 <= i < |elems|
    ensures Build(conv, Dynamic(name, Some(Default), key), p) == Ok(elems[i])
  {
    IndexProjection(conv, ws, kind, elems, key);
  }

  /** Setting another entry does not change what a builder yields; setting its own
      entry makes a getter-less builder yield the new value. */
  method SetValueThenBuild(conv: Conversions, b: ValueBuilder, p: PipelineContext, k: string, v: Value)
    returns (before: Result<Value>, after: Result<Value>)
    requires p.values != null
    modifies p.values
    ensures b.Dynamic? && b.contextKey != k ==> after == before
    ensures b.Dynamic? && b.contextKey == k && k != "" && b.getter.None? ==> after == Ok(v)
    ensures b.Literal? ==> after == before == Ok(b.value)
  {
    before := Build(conv, b, p);
    var _, _ := p.SetValue(k, v);
    after := Build(conv, b, p);
  }
}

=== FILE: value_getter.dfy ===
/** Structural projection of a dynamic value by a key: `DefaultValueGetter` and
    `StaticValueGetter` of value_getter.go. */
module ValueGetters {
  import opened Errors
  import opened Values

  /** What projection needs from reflection's `CanConvert`/`Convert`, left abstract:
      for a key, its conversion to `int`, to `string` and to a map's key type, or
      `None` where `CanConvert` is false. */
  datatype Conversions = Conversions(
    toInt: Value -> Option<int>,
    toString: Value -> Option<string>,
    toKeyType: (Value, GoType) -> Option<Value>)

  /** The value found behind every non-nil pointer and interface around `v`;
      `None` when one of them is nil. */
  function Unwrap(v: Value): (r: Option<Value>)
    ensures r.Some? ==> !r.value.Wrapper?
  {
    match v
    case Wrapper(_, None) => None
    case Wrapper(_, Some(e)) => Unwrap(e)
    case _ => Some(v)
  }

  predicate IsContainer(v: Value) {
    v.Sequence? || v.Map? || v.Struct?
  }

  /** `r` can be read out of the unwrapped value `core`: a primitive is its own
      content; otherwise `r` is an element, a mapped value or an exported field. */
  ghost predicate Holds(core: Value, r: Value) {
    match core
    case Prim(_) => r == core
    case Sequence(_, elems) => r in elems
    case Map(_, entries) => r in entries.Values
    case Struct(fields) => exists f :: f in fields && f.exported && f.value == r
    case _ => false
  }

  /** Only unexported fields share a name: in Go the one name a struct may repeat is
      the blank `_`, which is never exported. */
  ghost predicate SharedNamesUnexported(fields: seq<Field>) {
    forall i, j :: 0 <= i < j < |fields| && fields[i].name == fields[j].name ==>
      !fields[i].exported && !fields[j].exported
  }

  /** Two different fields of the same name are both unexported. */
  lemma {:induction false} SameNameUnexported(fields: seq<Field>, f: Field, g: Field)
    requires SharedNamesUnexported(fields)
    requires f in fields && g in fields && f.name == g.name && f != g
    ensures !f.exported && !g.exported
  {
    var i :| 0 <= i < |fields| && fields[i] == f;
    var j :| 0 <= j < |fields| && fields[j] == g;
    if i < j {
      assert fields[i].name == fields[j].name;
    } else {
      assert j < i && fields[j].name == fields[i].name;
    }
  }

  /** `reflect.Value.FieldByName`: the field with that name, if there is one. */
  function FieldByName(fields: seq<Field>, name: string): (r: Option<Field>)
    ensures r.Some? ==> r.value in fields && r.value.name == name
    ensures r.None? <==> forall f :: f in fields ==> f.name != name
  {
    if fields == [] then None
    else if fields[0].name == name then Some(fields[0])
    else FieldByName(fields[1..], name)
  }

  /** `getValueFromReflectValue`: a case analysis over the kind of `v`, recursing
      through pointers and interfaces. `key` is known to be non-nil. */
  function Project(conv: Conversions, v: Value, key: Value): (r: Result<Value>)
    ensures r == Err(InputIsNil) <==> Unwrap(v).None?
    ensures r.Ok? ==> Unwrap(v).Some? && Holds(Unwrap(v).value, r.value)
    ensures r == Err(ImproperValueKind) <==> Unwrap(v).Some? && (Unwrap(v).value.Nil? || Unwrap(v).value.Opaque?)
    ensures r == Err(KeyTypeInvalid) || r == Err(ValueNotFound) ==> Unwrap(v).Some? && IsContainer(Unwrap(v).value)
    ensures r == Err(FieldIsUnexported) ==> Unwrap(v).Some? && Unwrap(v).value.Struct?
    ensures r.Err? ==> IsGetterError(r.error) && r.error != KeyIsEmpty
  {
    match v
    case Prim(_) => Ok(v)
    case Sequence(_, elems) =>
      (match conv.toInt(key)
       case None => Err(KeyTypeInvalid)
       case Some(i) => if i < 0 || i >= |elems| then Err(ValueNotFound) else Ok(elems[i]))
    case Opaque(_) => Err(ImproperValueKind)
    case Wrapper(_, elem) =>
      (match elem
       case None => Err(InputIsNil)
       case Some(e) => Project(conv, e, key))
    case Map(keyType, entries) =>
      (match conv.toKeyType(key, keyType)
       case None => Err(KeyTypeInvalid)
       case Some(k) => if k in entries then Ok(entries[k]) else Err(ValueNotFound))
    case Struct(fields) =>
      (match conv.toString(key)
       case None => Err(KeyTypeInvalid)
       case Some(name) =>
         (match FieldByName(fields, name)
          case None => Err(ValueNotFound)
          case Some(f) => if f.exported then Ok(f.value) else Err(FieldIsUnexported)))
    // reflection's Invalid kind falls to the default case
    case Nil => Err(ImproperValueKind)
  }

  /** `DefaultValueGetter.GetValue`: nil input is rejected before a nil key. */
  function DefaultGetValue(conv: Conversions, input: Value, valueKey: Value): (r: Result<Value>)
    ensures input == Nil ==> r == Err(InputIsNil)
    ensures input != Nil && valueKey == Nil ==> r == Err(KeyIsEmpty)
    ensures input != Nil && valueKey != Nil ==> r == Project(conv, input, valueKey)
    ensures r.Err? ==> IsGetterError(r.error)
  {
    if input == Nil then Err(InputIsNil)
    else if valueKey == Nil then Err(KeyIsEmpty)
    else Project(conv, input, valueKey)
  }

  /** The getters of this package: `DefaultValueGetter` and `StaticValueGetter`. */
  datatype ValueGetter = Default | Static(value: Value)

  /** `ValueGetter.GetValue`, dispatched on the getter. */
  function GetValue(g: ValueGetter, conv: Conversions, input: Value, valueKey: Value): (r: Result<Value>)
    ensures g.Static? ==> r == Ok(g.value)
    ensures g.Default? ==> r == DefaultGetValue(conv, input, valueKey)
    ensures r.Err? ==> g.Default? && IsGetterError(r.error)
  {
    match g
    case Default => DefaultGetValue(conv, input, valueKey)
    case Static(value) => Ok(value)
  }

  /** Non-nil pointers and interfaces are transparent to projection. */
  lemma {:induction false} WrappersAreTransparent(conv: Conversions, ws: seq<WrapperKind>, v: Value, key: Value)
    ensures Project(conv, Wrap(ws, v), key) == Project(conv, v, key)
    ensures Unwrap(Wrap(ws, v)) == Unwrap(v)
  {
    if ws != [] {
      WrappersAreTransparent(conv, ws[1..], v, key);
    }
  }

  /** A nil pointer or interface anywhere behind non-nil ones gives ErrInputIsNil, whatever the key. */
  lemma {:induction false} NilWrapperGivesInputIsNil(conv: Conversions, ws: seq<WrapperKind>, w: WrapperKind, key: Value)
    requires key != Nil
    ensures DefaultGetValue(conv, Wrap(ws, Wrapper(w, None)), key) == Err(InputIsNil)
  {
    WrappersAreTransparent(conv, ws, Wrapper(w, None), key);
  }

  /** A typed nil pointer is not the untyped nil interface: with a nil key it gives
      ErrKeyIsEmpty, where the nil interface gives ErrInputIsNil. */
  lemma NilPointerWithNilKey(conv: Conversions)
    ensures DefaultGetValue(conv, Wrapper(Pointer, None), Nil) == Err(KeyIsEmpty)
    ensures DefaultGetValue(conv, Nil, Nil) == Err(InputIsNil)
  {
  }

  /** A primitive, behind any non-nil wrappers, is returned unchanged for every non-nil key. */
  lemma {:induction false} PrimitiveIgnoresKey(conv: Conversions, ws: seq<WrapperKind>, p: Prim, key: Value)
    requires key != Nil
    ensures DefaultGetValue(conv, Wrap(ws, Prim(p)), key) == Ok(Prim(p))
  {
    WrappersAreTransparent(conv, ws, Prim(p), key);
  }

  /** Arrays and slices are indexed by a key convertible to `int`, within `[0, len)`. */
  lemma {:induction false} IndexProjection(conv: Conversions, ws: seq<WrapperKind>, kind: SeqKind, elems: seq<Value>, key: Value)
    requires key != Nil
    ensures var r := DefaultGetValue(conv, Wrap(ws, Sequence(kind, elems)), key);
      && (conv.toInt(key).None? ==> r == Err(KeyTypeInvalid))
      && (conv.toInt(key).Some? && !(0 <= conv.toInt(key).value < |elems|) ==> r == Err(ValueNotFound))
      && (conv.toInt(key).Some? && 0 <= conv.toInt(key).value < |elems| ==> r == Ok(elems[conv.toInt(key).value]))
  {
    WrappersAreTransparent(conv, ws, Sequence(kind, elems), key);
  }

  /** Maps are looked up by the key converted to the map's key type. */
  lemma {:induction false} MapProjection(conv: Conversions, ws: seq<WrapperKind>, keyType: GoType, entries: map<Value, Value>, key: Value)
    requires key != Nil
    ensures var r := DefaultGetValue(conv, Wrap(ws, Map(keyType, entries)), key);
      var k := conv.toKeyType(key, keyType);
      && (k.None? ==> r == Err(KeyTypeInvalid))
      && (k.Some? && k.value !in entries ==> r == Err(ValueNotFound))
      && (k.Some? && k.value in entries ==> r == Ok(entries[k.value]))
  {
    WrappersAreTransparent(conv, ws, Map(keyType, entries), key);
  }

  /** Structs are read by field name: unknown names are not found, unexported fields refused. */
  lemma {:induction false} FieldProjection(conv: Conversions, ws: seq<WrapperKind>, fields: seq<Field>, key: Value)
    requires key != Nil
    requires SharedNamesUnexported(fields)
    ensures var r := DefaultGetValue(conv, Wrap(ws, Struct(fields)), key);
      && (conv.toString(key).None? ==> r == Err(KeyTypeInvalid))
      && (conv.toString(key).Some? && (forall f :: f in fields ==> f.name != conv.toString(key).value) ==> r == Err(ValueNotFound))
      && (forall f :: f in fields && conv.toString(key) == Some(f.name) ==>
            r == if f.exported then Ok(f.value) else Err(FieldIsUnexported))
  {
    WrappersAreTransparent(conv, ws, Struct(fields), key);
    forall f | f in fields && conv.toString(key) == Some(f.name)
      ensures Project(conv, Struct(fields), key) == if f.exported then Ok(f.value) else Err(FieldIsUnexported)
    {
      var g := FieldByName(fields, f.name).value;
      if g != f {
        SameNameUnexported(fields, f, g);
      }
    }
  }

  /** Channels, functions and unsafe pointers cannot be looked into, whatever wraps them. */
  lemma {:induction false} OpaqueKindsRefused(conv: Conversions, ws: seq<WrapperKind>, k: OpaqueKind, key: Value)
    requires key != Nil
    ensures DefaultGetValue(conv, Wrap(ws, Opaque(k)), key) == Err(ImproperValueKind)
  {
    WrappersAreTransparent(conv, ws, Opaque(k), key);
  }

  /** `StaticValueGetter.GetValue` ignores both arguments and never fails. */
  lemma StaticIgnoresArguments(value: Value, conv: Conversions, input: Value, valueKey: Value, conv': Conversions, input': Value, valueKey': Value)
    ensures GetValue(Static(value), conv, input, valueKey) == GetValue(Static(value), conv', input', valueKey') == Ok(value)
  {
  }
}

=== FILE: values.dfy ===
/** Go's dynamically typed `any`, as far as reflection lets the getters look into it. */
module Values {
  import opened Errors

  datatype IntWidth = Int | Int8 | Int16 | Int32 | Int64
  datatype UintWidth = Uint | Uint8 | Uint16 | Uint32 | Uint64 | Uintptr
  datatype FloatWidth = Float32 | Float64
  datatype ComplexWidth = Complex64 | Complex128

  /** The primitive kinds. Floating-point and complex numbers are kept opaque (`bits`). */
  datatype Prim =
    | Bool(b: bool)
    | Signed(iw: IntWidth, i: int)
    | Unsigned(uw: UintWidth, n: nat)
    | Float(fw: FloatWidth, bits: nat)
    | Complex(cw: ComplexWidth, bits: nat)
    | Str(s: string)

  datatype SeqKind = Array | Slice
  datatype WrapperKind = Pointer | Interface
  /** The kinds reflection cannot look into. */
  datatype OpaqueKind = Chan | Func | UnsafePointer

  /** A Go type, only ever used as the target of a key conversion. */
  datatype GoType = GoType(name: string)

  /** A struct field as reflection sees it: its name, whether it is exported, its value. */
  datatype Field = Field(name: string, exported: bool, value: Value)

  /** A dynamic value. `Nil` is the untyped nil interface (reflection's Invalid kind);
      a nil pointer or nil interface is a `Wrapper` holding `None`; a nil slice or map
      is an empty `Sequence` or `Map`. Elements, map values and field values are the
      dynamic values reflection's `Interface` hands out, so an interface-typed slot holds
      its content, not a wrapper. Not every value of this type arises from Go: an
      `Interface` wrapper occurs only directly under a `Pointer`, and no non-nil wrapper
      holds `Nil`. */
  datatype Value =
    | Nil
    | Prim(p: Prim)
    | Sequence(kind: SeqKind, elems: seq<Value>)
    | Map(keyType: GoType, entries: map<Value, Value>)
    | Struct(fields: seq<Field>)
    | Wrapper(wkind: WrapperKind, elem: Option<Value>)
    | Opaque(okind: OpaqueKind)

  /** `v` behind the chain of non-nil pointers and interfaces `ws`, outermost first. */
  function Wrap(ws: seq<WrapperKind>, v: Value): Value
  {
    if ws == [] then v else Wrapper(ws[0], Some(Wrap(ws[1..], v)))
  }
}
